=== FILE: README.md ===
# FileShareBot batch store, modelled in Dafny

FileShareBot is a Telegram bot for one-time file links. The admin sends files, one at
a time or as an album. The bot copies each file into a private storage channel and
records the copy's message id in a batch. For the first file of a batch it replies
with a link `https://t.me/<bot>?start=<code>`. Whoever opens that link sends
`/start <code>`. The bot is meant to copy every file of the batch to that user and
mark the batch used, so that the link works once. As written, it never does: it
looks the code up as a store key, and no key the handlers write is a code, so on a
store only the handlers wrote, every announced link answers "invalid" (see
"## Findings").

All of this lives in `Main.py`. The store is the dictionary that `load_db` reads from
`batches.json` and `save_db` writes back whole. Its keys are grouping keys
(`group_<media_group_id>` or `single_<message_id>`). Each value is a record with
`code`, `msg_ids`, and optionally `used` and `used_by`.

The model treats each handler as a pure transition on that map:

| module | file | what it holds |
|---|---|---|
| `Wrappers` | `wrappers.dfy` | `Option`, for JSON fields that may be missing |
| `Text` | `text.dfy` | Python's `str.isspace`, `strip` and `split(maxsplit=1)`, plus `str(int)` with its inverse |
| `Codes` | `codes.dfy` | `generate_code`; its random picks are an input |
| `Batches` | `batches.dfy` | the `Entry` record, the `Store` map, and the shape the handlers keep it in |
| `Upload` | `upload.dfy` | `admin_upload_handler` |
| `Redemption` | `redemption.dfy` | `start_handler` and its delivery loop |
| `Listing` | `listing.dfy` | the key filter and contents of `admin_list_batches` |
| `Lifecycle` | `lifecycle.dfy` | runs of handler calls, album aggregation, one-time redemption, the link lookup |

Three things come from outside a handler, so they are parameters:

- the random picks of `generate_code`: one alphabet index per character;
- the outcome of copying an upload into the channel: `Copied(id)` or `CopyFailed`;
- whether the i-th delivery copy succeeds: `sendOk(i)`.

A handler takes the map `load_db()` returns and gives back the map it saves, plus its
reply.

Stored records can be edited by hand, so each field of `Entry` is optional. When the
code would raise `KeyError` on a missing field, the model gives the reply
`MissingField`; the handler stops there. `WellFormed` describes a store that only the
handlers have written. On such a store those paths cannot happen (`NoMissingField`,
`ListingShowsAll`).

## Model

| member | source | states |
|---|---|---|
| Codes.GenerateCode | Main.py:36-38 | The result has the requested length and holds only ASCII letters and digits; character i is the alphabet entry picked by draw i. |
| Codes.GenerateCodeExactlyCodes | Main.py:36-38 | A string is a possible `generate_code(n)` result if and only if it has n characters, all ASCII letters or digits. |
| Batches.CodesAreNotKeys | Main.py:36-38 | A six-character code is never a key of a store the handlers wrote: every key starts with `group_` or `single_`, and a code has no underscore. |
| Text.CommandArgument | Main.py:43-57 | The argument of `text.strip().split(maxsplit=1)[1].strip()` is non-empty with no whitespace at either end. It is what follows the first word and the whitespace run behind it in the stripped text. It is absent exactly when the stripped text holds no whitespace, which is the welcome case. |
| Text.Strip | Main.py:43 | `str.strip` leaves no whitespace at either end and never lengthens the text. |
| Text.StripKeepsMiddle | Main.py:43 | `strip` removes only whitespace, at both ends. What it keeps is one contiguous part of the text. |
| Text.SplitFirst | Main.py:43 | The first part has no whitespace. When there is a second part, the stripped text is the first part, then a non-empty whitespace run, then the second part. |
| Text.ArgumentOfTwoWords | Main.py:43-57 | A command word, a space and an argument word give back exactly that argument. |
| Redemption.DeepLinkArgument | Main.py:43-57 | The text a `?start=<code>` link sends gives exactly `<code>` as the looked-up string. |
| Redemption.StartHandler | Main.py:42-57 | `/start` with no argument gives the welcome reply and writes nothing. Otherwise the handler redeems the parsed argument. |
| Redemption.Redeem | Main.py:57-90 | A string that is not a key, or names an empty record, is invalid and nothing is written. A used record gives "already used" and nothing changes, `used_by` included. An unused record with missing or empty `msg_ids` gives "no files" and nothing is written. Otherwise every stored id is attempted in stored order, and attempt i succeeds exactly when the transport lets copy i through. Then that key alone gets `used = true` and `used_by = requester`, with its code and ids kept. No path touches an already-used record. |
| Redemption.Deliveries | Main.py:75-84 | The delivery loop as `Redeem` uses it: one attempt per stored id, in stored order, each with its transport outcome. |
| Redemption.SendAll | Main.py:75-84 | The delivery loop attempts every stored id once, in order. A failed copy is recorded and the loop goes on. Its result equals `Deliveries`. |
| Redemption.DeliveriesAttemptAll | Main.py:75-84 | Whatever the transport does, the attempted ids are exactly the stored ids in order. When every copy succeeds, the delivered ids are the stored ids. |
| Upload.GroupingKey | Main.py:110-114 | The key starts with `group_` exactly when the message has a `media_group_id`; otherwise it starts with `single_`. |
| Upload.GroupingKeySame | Main.py:110-114 | Two messages get the same key if and only if they carry the same `media_group_id`, or neither has one and they share a `message_id`. |
| Upload.AdminUpload | Main.py:101-159 | A non-admin upload is ignored and writes nothing. An admin upload adds at most its grouping key and changes no other key. An unseen key gets a six-character code and an empty list, even if the copy then fails. A seen key keeps its code and flags. A successful copy appends exactly one id at the end. A `KeyError` needs a record that already existed. The link is announced exactly when the list has just reached length one, and it carries the stored code. |
| Upload.AppendCopy | Main.py:127-159 | A failed copy writes nothing more. A successful copy appends its id to the key's list alone. The link is announced exactly when that list is now the single new id. |
| Listing.ListBatches | Main.py:163-174 | Non-admins get nothing. The admin sees exactly the keys starting with `group_` or `single_`, each with its stored code and number of ids. A shown record that lacks a field ends in `KeyError`. |
| Listing.ListingShowsAll | Main.py:167-173 | On a store the handlers wrote, the admin sees every record, and "No batches yet." appears exactly when the store is empty. |
| Lifecycle.RunEvolves | Main.py:86-90 | Across any sequence of uploads and redemptions: no key disappears, no code changes, id lists only grow at their end, and a used record stays used with the same `used_by`. |
| Lifecycle.RunWellFormed | Main.py:117-144 | Handler calls keep the store well formed: grouping keys only; a code and an id list in every record; `used_by` set exactly when used; only records with files ever used. |
| Lifecycle.NoMissingField | Main.py:125-142 | On a well-formed store the upload handler never hits a `KeyError`. |
| Lifecycle.RedeemedOnce | Main.py:65-90 | After a successful redemption by one user, any later attempt by anyone gets "already used" and changes nothing; `used_by` stays the first user. |
| Lifecycle.AtMostOneDelivers | Main.py:60-90 | Of any number of redemptions, in turn, of one existing, non-empty, unused record with files, only the first delivers. All later ones get "already used", and `used_by` names the first requester. |
| Lifecycle.InvalidIsIdempotent | Main.py:60-63 | Redeeming a string that is not a key, any number of times, always gives "invalid" and never creates a record. |
| Lifecycle.AlbumFirstUpload | Main.py:117-159 | The first upload of an unseen album creates its record with the drawn code. The record holds the copy's id when the copy succeeds and nothing when it fails. The link carrying that code is announced exactly when the copy succeeds. |
| Lifecycle.AlbumAggregates | Main.py:109-159 | K admin uploads of one album, on a store without it, make exactly one new record, unused. Its code was drawn for the first upload, even when that copy failed. Its ids are those of the successful copies, in arrival order. A failed copy answers with the error. The link is announced once, on the first successful copy; later successful copies report "added". No other record changes. |
| Lifecycle.IssuedLinkIsInvalid | Main.py:60-63 | On a store the handlers wrote (`WellFormed`), opening the link an upload announces always gives "invalid" and writes nothing, as written. |
| Lifecycle.IssuedLinkIsInvalidExample | Main.py:101-159 | One concrete scenario: an upload into an empty store announces `K7m2Qx`, and `/start K7m2Qx` then answers "invalid". |
| Lifecycle.RedeemIssued | Main.py:60-90 | Corrected lookup. A code is invalid exactly when no record carries it. Otherwise the record carrying it is redeemed as in `Redeem`, whatever the reply, and used records are never touched. |
| Lifecycle.StartHandlerIssued | Main.py:42-90 | `start_handler` with the corrected lookup: the welcome reply, writing nothing, exactly when the stripped text is one word. Otherwise the parsed argument goes through `RedeemIssued`. |
| Lifecycle.IssuedLinkRedeems | Main.py:60-90 | With the corrected lookup, the announced link delivers the batch's file and marks that batch used by the opener. Opening it again gives "already used". |
| Text.IntToDecimal | Main.py:114 | `str(message_id)` has no whitespace and begins with a digit exactly when the id is not negative. |
| Text.IntDecimalRoundTrip | Main.py:114 | The decimal rendering of a `message_id` reads back as the same integer. |

## Findings

| source | as written | input that shows it | evidently intended | confidence | as-written member | corrected member |
|---|---|---|---|---|---|---|
| Main.py:60 | `start_handler` looks the presented code up as a key of the store. But `admin_upload_handler` stores every batch under its grouping key (Main.py:119, 143) and puts the code only in the `code` field. A generated code has six letters or digits and no underscore, so it never equals a `group_`/`single_` key. Only a hand-edited store can hold a key that is a code. | Admin uploads message 1 into an empty store and the draws spell `K7m2Qx`. The bot announces `K7m2Qx`, and `/start K7m2Qx` replies "This link is invalid." | Opening the announced link delivers the batch: the lookup goes through the record whose `code` field equals the presented code. | high (not executed) | Lifecycle.IssuedLinkIsInvalid | Lifecycle.IssuedLinkRedeems |

`Redemption.StartHandler` and `Redemption.Redeem` keep the source's lookup.
`Lifecycle.RedeemIssued` and `Lifecycle.StartHandlerIssued` are the corrected path.
The corrected path needs codes to be distinct across the store (`CodesDistinct`).
`generate_code` does not check for collisions, so `IssuedLinkRedeems` assumes the
drawn code is not already in use.

## Behaviour worth noting

- **Growth after redemption.** `admin_upload_handler` appends to a batch that is
  already used (Main.py:139-144), and `AdminUpload` does the same.
- **No further features.** `Main.py` has no revocation, no title or note
  annotations, no timestamps and no display label for the redeemer.
- **No collision retry.** `generate_code` draws once and never checks whether the
  code is already in use (Main.py:36-38).
- **Delivery failures.** The delivery loop prints a failed copy and moves on; the
  user gets no reply about it (Main.py:75-84). The model records each attempt's
  outcome in `FilesSent`.

## Left out

- Telegram I/O is not modelled: `bot.reply_to`, `bot.copy_message` and
  `infinity_polling`. Copy outcomes are inputs and replies are datatypes. Reply text
  and Markdown are not modelled.
- JSON file persistence is not modelled, including the bare `except` in `load_db`
  that turns any read failure into an empty store. A handler receives the loaded map
  and returns the saved map. The intermediate save on Main.py:123 and the reload on
  Main.py:140 read back what was just written, so they are not separate steps.
- Randomness is not modelled: the picks of `random.choice` are an input, and
  collision probability is out of scope.
- Concurrency is not modelled: each handler is one atomic step, and the source has
  no locking.
- JSON values other than those modelled are left out: a record that is not a
  dictionary, a `used` that is not a boolean, extra fields. The only falsy record
  modelled is `{}`.
- When a `KeyError` hits after the copy (`msg_ids` missing), the copied message stays
  in the channel. That side effect is not modelled.
- The order of listing lines is left out: `Listing.ListBatches` returns a map, not
  the dictionary's insertion order.
- The welcome text, `/myid`, and the formatting of `admin_list_batches` are
  presentation and are not modelled.
- The token check and the channel id (Main.py:7-19) are not modelled. `ADMIN_ID` is
  modelled as `AdminId`.
- Redemption.StartHandler: requires the message text not to be all whitespace. The
  bot only dispatches texts beginning with `/start` to this handler, so the
  `IndexError` an all-whitespace text would raise is not modelled.

=== FILE: batches.dfy ===
/** The batch store: the dictionary `load_db` reads from `batches.json` and `save_db`
    writes back whole. Each value is a JSON object; every field may be missing from a
    file edited by hand, so each is optional here. */
module Batches {
  import opened Wrappers
  import opened Text
  import opened Codes

  /** `ADMIN_ID`: the only user whose uploads and listing requests are served. */
  const AdminId: UserId := 8545081401

  type Key = string

  /** A Telegram message id (`message_id`, or the id of the copy in the storage
      channel). */
  type MsgId = int

  /** A Telegram user id (`from_user.id`). */
  type UserId = int

  /** One stored record: `code`, `msg_ids`, `used` and `used_by`. */
  datatype Entry = Entry(
    code: Option<string>,
    msgIds: Option<seq<MsgId>>,
    used: Option<bool>,
    usedBy: Option<UserId>)

  /** The whole of `batches.json`. */
  type Store = map<Key, Entry>

  /** The record an upload creates for an unseen grouping key: `{"code": code,
      "msg_ids": []}`. */
  function NewEntry(code: string): (e: Entry)
    ensures e.code == Some(code) && e.msgIds == Some([])
    ensures e.used.None? && e.usedBy.None?
  {
    Entry(Some(code), Some([]), None, None)
  }

  /** `not batch`: an empty JSON object is falsy. */
  predicate IsBlank(e: Entry) {
    e.code.None? && e.msgIds.None? && e.used.None? && e.usedBy.None?
  }

  /** `batch.get("used", False)`. */
  predicate IsUsed(e: Entry) {
    e.used == Some(true)
  }

  /** `batch.get("msg_ids", [])`. */
  function Files(e: Entry): seq<MsgId> {
    e.msgIds.GetOr([])
  }

  /** The keys `admin_list_batches` shows: those starting with `group_` or `single_`. */
  predicate IsBatchKey(k: Key) {
    StartsWith(k, "group_") || StartsWith(k, "single_")
  }

  /** A record in the shape the handlers write: a six-character code and a list of
      ids; `used_by` is set exactly when the record is used, and only a record with
      files is ever used. */
  predicate WellFormedEntry(e: Entry) {
    && e.code.Some? && IsCode(e.code.value) && e.msgIds.Some?
    && (e.usedBy.Some? <==> IsUsed(e))
    && (IsUsed(e) ==> e.msgIds.value != [])
  }

  /** A store that only the two handlers have written, starting from no file:
      every key is a grouping key and every record is well formed. */
  predicate WellFormed(s: Store) {
    forall k :: k in s ==> IsBatchKey(k) && WellFormedEntry(s[k])
  }

  /** A batch code is never a key a handler writes: codes are six letters or digits,
      and a grouping key holds an underscore within its first seven characters. */
  lemma CodeIsNotBatchKey(c: string)
    requires IsCode(c)
    ensures !IsBatchKey(c)
  {
    assert c[..6][5] == c[5] != '_';
  }

  /** A batch code of a well-formed store never resolves as a key of it. */
  lemma CodesAreNotKeys(s: Store, c: string)
    requires WellFormed(s) && IsCode(c)
    ensures c !in s
  {
    CodeIsNotBatchKey(c);
  }
}

=== FILE: codes.dfy ===
/** Batch codes: `generate_code` draws `length` characters from
    `string.ascii_letters + string.digits`. The random draws are an input here: the
    i-th draw is the index `random.choice` picked in that 62-character alphabet. */
module Codes {

  /** Length of the code `generate_code()` produces with its default argument. */
  const CodeLength: nat := 6

  /** Size of `ascii_letters + digits`. */
  const AlphabetSize: nat := 62

  /** The k-th character of `ascii_letters + digits`: `a`..`z`, then `A`..`Z`, then
      `0`..`9`. */
  function AlphabetChar(k: nat): (c: char)
    requires k < AlphabetSize
    ensures IsCodeChar(c)
  {
    if k < 26 then ('a' as int + k) as char
    else if k < 52 then ('A' as int + (k - 26)) as char
    else ('0' as int + (k - 52)) as char
  }

  /** Where a code character sits in the alphabet. */
  function AlphabetIndex(c: char): (k: nat)
    requires IsCodeChar(c)
    ensures k < AlphabetSize && AlphabetChar(k) == c
  {
    if 'a' <= c <= 'z' then c as int - 'a' as int
    else if 'A' <= c <= 'Z' then 26 + (c as int - 'A' as int)
    else 52 + (c as int - '0' as int)
  }

  /** An ASCII letter or digit. */
  predicate IsCodeChar(c: char) {
    ('a' <= c <= 'z') || ('A' <= c <= 'Z') || ('0' <= c <= '9')
  }

  predicate IsCodeOfLength(s: string, length: nat) {
    |s| == length && forall i :: 0 <= i < |s| ==> IsCodeChar(s[i])
  }

  /** A code as `generate_code()` produces it: six letters or digits. */
  predicate IsCode(s: string) {
    IsCodeOfLength(s, CodeLength)
  }

  /** What the random source may hand back: one alphabet index per character. */
  predicate ValidDraws(draws: seq<nat>, length: nat) {
    |draws| == length && forall i :: 0 <= i < |draws| ==> draws[i] < AlphabetSize
  }

  /** `generate_code(length)`: character i is the alphabet entry of draw i. */
  function GenerateCode(length: nat, draws: seq<nat>): (code: string)
    requires ValidDraws(draws, length)
    ensures IsCodeOfLength(code, length)
    ensures forall i :: 0 <= i < length ==> code[i] == AlphabetChar(draws[i])
  {
    if length == 0 then ""
    else [AlphabetChar(draws[0])] + GenerateCode(length - 1, draws[1..])
  }

  /** The draws that make GenerateCode produce `code`. */
  function DrawsFor(code: string): (draws: seq<nat>)
    requires forall i :: 0 <= i < |code| ==> IsCodeChar(code[i])
    ensures ValidDraws(draws, |code|)
    ensures forall i :: 0 <= i < |code| ==> AlphabetChar(draws[i]) == code[i]
  {
    seq(|code|, i requires 0 <= i < |code| => AlphabetIndex(code[i]))
  }

  /** Every string of `length` letters and digits is a possible outcome of
      `generate_code(length)`, and the draws determine it: the model neither adds
      nor loses codes. */
  lemma GenerateCodeExactlyCodes(length: nat, code: string)
    ensures IsCodeOfLength(code, length) <==>
              exists draws :: ValidDraws(draws, length) && GenerateCode(length, draws) == code
  {
    if IsCodeOfLength(code, length) {
      var draws := DrawsFor(code);
      assert GenerateCode(length, draws) == code;
    }
  }
}

=== FILE: lifecycle.dfy ===
/** The store across any sequence of handler calls: what every call preserves, how
    an album aggregates into one batch, and that a batch is redeemed at most once. */
module Lifecycle {
  import opened Wrappers
  import opened Text
  import opened Codes
  import opened Batches
  import opened Upload
  import opened Redemption

  /** One handler call, with what the outside world contributes to it. */
  datatype Event =
    | UploadEvent(m: Message, draws: seq<nat>, copy: CopyResult)
    | StartEvent(text: string, requester: UserId, sendOk: nat -> bool)

  /** What the bot and the random source guarantee of a call. */
  predicate ValidEvent(e: Event) {
    match e
    case UploadEvent(_, draws, _) => ValidDraws(draws, CodeLength)
    case StartEvent(text, _, _) => !AllSpace(text)
  }

  /** The store once the handler of `e` returns. */
  function Step(s: Store, e: Event): Store
    requires ValidEvent(e)
  {
    match e
    case UploadEvent(m, draws, copy) => AdminUpload(s, m, draws, copy).0
    case StartEvent(text, requester, sendOk) => StartHandler(s, text, requester, sendOk).0
  }

  /** The calls one after the other, each on the store the previous one saved. */
  function Run(s: Store, es: seq<Event>): Store
    requires forall i :: 0 <= i < |es| ==> ValidEvent(es[i])
    decreases |es|
  {
    if |es| == 0 then s else Run(Step(s, es[0]), es[1..])
  }

  /** `b` extends `a`: no key disappears, no code changes, the id lists only grow at
      their end, and a used record stays used by the same user. */
  predicate Evolves(a: Store, b: Store) {
    && a.Keys <= b.Keys
    && forall k :: k in a ==>
         && b[k].code == a[k].code
         && (a[k].msgIds.None? ==> b[k].msgIds.None?)
         && (a[k].msgIds.Some? ==> b[k].msgIds.Some? && a[k].msgIds.value <= b[k].msgIds.value)
         && (IsUsed(a[k]) ==> IsUsed(b[k]) && b[k].usedBy == a[k].usedBy)
  }

  lemma EvolvesTransitive(a: Store, b: Store, c: Store)
    requires Evolves(a, b) && Evolves(b, c)
    ensures Evolves(a, c)
  {
    forall k | k in a
      ensures a[k].msgIds.Some? ==> c[k].msgIds.Some? && a[k].msgIds.value <= c[k].msgIds.value
    {
      if a[k].msgIds.Some? {
        var x, y, z := a[k].msgIds.value, b[k].msgIds.value, c[k].msgIds.value;
        assert x == y[..|x|] && y == z[..|y|];
        assert x == z[..|x|];
      }
    }
  }

  /** An upload moves the store forward. */
  lemma UploadEvolves(s: Store, m: Message, draws: seq<nat>, copy: CopyResult)
    requires ValidDraws(draws, CodeLength)
    ensures Evolves(s, AdminUpload(s, m, draws, copy).0)
  {
    var (t, reply) := AdminUpload(s, m, draws, copy);
    var key := GroupingKey(m);
    if m.sender == AdminId && key in s && s[key].msgIds.Some? {
      if !reply.MissingField? && copy.Copied? {
        var ids := s[key].msgIds.value;
        assert ids <= ids + [copy.channelMsgId];
      }
    }
  }

  /** Every single call moves the store forward. */
  lemma StepEvolves(s: Store, e: Event)
    requires ValidEvent(e)
    ensures Evolves(s, Step(s, e))
  {
    match e
    case UploadEvent(m, draws, copy) =>
      UploadEvolves(s, m, draws, copy);
    case StartEvent(text, requester, sendOk) =>
      match CommandArgument(text)
      case None =>
      case Some(code) => RedeemEvolves(s, code, requester, sendOk);
  }

  /** A redemption moves the store forward. */
  lemma RedeemEvolves(s: Store, code: string, requester: UserId, sendOk: nat -> bool)
    ensures Evolves(s, Redeem(s, code, requester, sendOk).0)
  {
    var (t, reply) := Redeem(s, code, requester, sendOk);
    if reply.FilesSent? {
      assert s[code].msgIds == t[code].msgIds;
    }
  }

  /** Across any sequence of uploads and redemptions nothing is removed, no code
      changes, id lists only grow, and `used` never returns to false nor does
      `used_by` change once set. */
  lemma {:induction false} RunEvolves(s: Store, es: seq<Event>)
    requires forall i :: 0 <= i < |es| ==> ValidEvent(es[i])
    ensures Evolves(s, Run(s, es))
    decreases |es|
  {
    if |es| == 0 {
      assert Evolves(s, s);
    } else {
      StepEvolves(s, es[0]);
      RunEvolves(Step(s, es[0]), es[1..]);
      EvolvesTransitive(s, Step(s, es[0]), Run(s, es));
    }
  }

  /** Every call keeps the store in the shape the handlers write. */
  lemma StepWellFormed(s: Store, e: Event)
    requires ValidEvent(e) && WellFormed(s)
    ensures WellFormed(Step(s, e))
  {
    match e
    case UploadEvent(m, draws, copy) =>
      UploadWellFormed(s, m, draws, copy);
    case StartEvent(text, requester, sendOk) =>
      match CommandArgument(text)
      case None =>
      case Some(code) => RedeemWellFormed(s, code, requester, sendOk);
  }

  /** An upload writes only its grouping key, with a code and an id list. */
  lemma UploadWellFormed(s: Store, m: Message, draws: seq<nat>, copy: CopyResult)
    requires WellFormed(s) && ValidDraws(draws, CodeLength)
    ensures WellFormed(AdminUpload(s, m, draws, copy).0)
  {
    var t := AdminUpload(s, m, draws, copy).0;
    var key := GroupingKey(m);
    forall k | k in t
      ensures IsBatchKey(k) && WellFormedEntry(t[k])
    {
      if k != key {
        assert t[k] == s[k];
      } else if key in s {
        assert WellFormedEntry(s[key]);
      }
    }
  }

  /** A redemption marks used only an unused record that has files. */
  lemma RedeemWellFormed(s: Store, code: string, requester: UserId, sendOk: nat -> bool)
    requires WellFormed(s)
    ensures WellFormed(Redeem(s, code, requester, sendOk).0)
  {
    var (t, reply) := Redeem(s, code, requester, sendOk);
    forall k | k in t
      ensures IsBatchKey(k) && WellFormedEntry(t[k])
    {
      if reply.FilesSent? && k == code {
        assert WellFormedEntry(s[k]);
      }
    }
  }

  /** A store grown from no file by the handlers alone is well formed: only grouping
      keys, each with a six-character code and an id list. */
  lemma {:induction false} RunWellFormed(s: Store, es: seq<Event>)
    requires forall i :: 0 <= i < |es| ==> ValidEvent(es[i])
    requires WellFormed(s)
    ensures WellFormed(Run(s, es))
    decreases |es|
  {
    if |es| > 0 {
      StepWellFormed(s, es[0]);
      RunWellFormed(Step(s, es[0]), es[1..]);
    }
  }

  /** On a well-formed store the KeyError paths are unreachable. */
  lemma NoMissingField(s: Store, m: Message, draws: seq<nat>, copy: CopyResult)
    requires WellFormed(s) && ValidDraws(draws, CodeLength)
    ensures !AdminUpload(s, m, draws, copy).1.MissingField?
  {
  }

  // ---- one-time redemption ----

  /** After a successful redemption by `first`, any later attempt, by anyone, finds
      the link expired, writes nothing, and `used_by` stays `first`. */
  lemma RedeemedOnce(s: Store, code: string, first: UserId, f: nat -> bool,
                     second: UserId, g: nat -> bool)
    requires Redeem(s, code, first, f).1.FilesSent?
    ensures var t := Redeem(s, code, first, f).0;
      && Redeem(t, code, second, g) == (t, AlreadyUsed)
      && t[code].usedBy == Some(first)
  {
  }

  /** Redeeming an unknown key never creates a record, however often it is tried. */
  lemma {:induction false} InvalidIsIdempotent(s: Store, code: string, users: seq<UserId>, f: nat -> bool)
    requires code !in s
    ensures var (t, rs) := RedeemAll(s, code, users, f);
      && t == s
      && |rs| == |users|
      && forall i :: 0 <= i < |rs| ==> rs[i] == InvalidLink
  {
    if |users| > 0 {
      InvalidIsIdempotent(s, code, users[..|users| - 1], f);
    }
  }

  /** Redemptions of one key by several users in turn. */
  function RedeemAll(s: Store, code: string, users: seq<UserId>, f: nat -> bool): (Store, seq<StartReply>)
  {
    if |users| == 0 then (s, [])
    else
      var (t, rs) := RedeemAll(s, code, users[..|users| - 1], f);
      var (u, r) := Redeem(t, code, users[|users| - 1], f);
      (u, rs + [r])
  }

  /** Of any number of redemptions of one key in turn, at most one delivers; every
      later one finds the link expired, and `used_by` names the one that delivered. */
  lemma {:induction false} AtMostOneDelivers(s: Store, code: string, users: seq<UserId>, f: nat -> bool)
    requires code in s && !IsBlank(s[code]) && !IsUsed(s[code]) && Files(s[code]) != []
    requires |users| > 0
    ensures var (t, rs) := RedeemAll(s, code, users, f);
      && |rs| == |users|
      && rs[0].FilesSent?
      && (forall i :: 1 <= i < |rs| ==> rs[i] == AlreadyUsed)
      && code in t && IsUsed(t[code])
      && t[code].usedBy == Some(users[0])
  {
    if |users| > 1 {
      AtMostOneDelivers(s, code, users[..|users| - 1], f);
      assert users[..|users| - 1][0] == users[0];
    }
  }

  // ---- album aggregation ----

  /** One upload with what the outside world contributes to it. */
  datatype Arrival = Arrival(m: Message, draws: seq<nat>, copy: CopyResult)

  /** The uploads handled one after the other, with the replies in order. */
  function UploadAll(s: Store, as_: seq<Arrival>): (Store, seq<UploadReply>)
    requires forall i :: 0 <= i < |as_| ==> ValidDraws(as_[i].draws, CodeLength)
  {
    if |as_| == 0 then (s, [])
    else
      var (t, rs) := UploadAll(s, as_[..|as_| - 1]);
      var a := as_[|as_| - 1];
      var (u, r) := AdminUpload(t, a.m, a.draws, a.copy);
      (u, rs + [r])
  }

  /** The storage-channel ids of the copies that succeeded, in arrival order. */
  function CopiedIds(as_: seq<Arrival>): (ids: seq<MsgId>)
    ensures |ids| <= |as_|
  {
    if |as_| == 0 then []
    else
      match as_[|as_| - 1].copy
      case Copied(id) => CopiedIds(as_[..|as_| - 1]) + [id]
      case CopyFailed => CopiedIds(as_[..|as_| - 1])
  }

  /** What the i-th upload of an album answers: a failed copy reports the error;
      the first successful copy announces the album's link; later ones report
      "added". */
  function AlbumReply(as_: seq<Arrival>, i: nat, code: string): UploadReply
    requires i < |as_|
  {
    if as_[i].copy.CopyFailed? then CopyError
    else if CopiedIds(as_[..i]) == [] then LinkIssued(code)
    else AddedToBatch
  }

  /** Admin uploads of one `media_group_id`, each with valid draws; any copy may
      fail. */
  predicate Album(as_: seq<Arrival>, group: string) {
    forall i :: 0 <= i < |as_| ==>
      && as_[i].m.sender == AdminId
      && as_[i].m.mediaGroupId == Some(group)
      && ValidDraws(as_[i].draws, CodeLength)
  }

  /** What K uploads of one album leave behind: `t` is `s` plus the album's record
      under `key`, unused, holding the code drawn for the first upload and the ids
      of the successful copies in arrival order; reply i is `AlbumReply`. */
  predicate AlbumHolds(s: Store, t: Store, rs: seq<UploadReply>, as_: seq<Arrival>, key: Key)
    requires |as_| > 0 && ValidDraws(as_[0].draws, CodeLength)
  {
    var code := GenerateCode(CodeLength, as_[0].draws);
    && t.Keys == s.Keys + {key}
    && (forall k :: k in s ==> t[k] == s[k])
    && key in t && t[key] == Entry(Some(code), Some(CopiedIds(as_)), None, None)
    && |rs| == |as_|
    && (forall i :: 0 <= i < |rs| ==> rs[i] == AlbumReply(as_, i, code))
  }

  /** K uploads of one album, on a store that has not seen the album, make exactly
      one new record whose code is the one drawn for the first upload and whose ids
      are those of the successful copies in arrival order. A failed copy answers
      with the error; the link is announced once, on the first successful copy, and
      later successful copies report "added". No other record changes. */
  lemma {:induction false} AlbumAggregates(s: Store, as_: seq<Arrival>, group: string)
    requires Album(as_, group) && |as_| > 0
    requires "group_" + group !in s
    ensures var (t, rs) := UploadAll(s, as_);
      AlbumHolds(s, t, rs, as_, "group_" + group)
  {
    var key := "group_" + group;
    var last := as_[|as_| - 1];
    assert GroupingKey(last.m) == key;
    if |as_| == 1 {
      AlbumFirstUpload(s, as_, key);
    } else {
      var init := as_[..|as_| - 1];
      AlbumAggregates(s, init, group);
      var (t, rs) := UploadAll(s, init);
      AlbumLaterUpload(s, t, rs, as_, key);
      var (u, r) := AdminUpload(t, last.m, last.draws, last.copy);
      assert UploadAll(s, as_) == (u, rs + [r]);
    }
  }

  /** The first upload of an album creates its record with the drawn code, holding
      the copy's id when the copy succeeds and nothing when it fails; it announces
      the link exactly when the copy succeeds. */
  lemma AlbumFirstUpload(s: Store, as_: seq<Arrival>, key: Key)
    requires |as_| == 1
    requires as_[0].m.sender == AdminId && ValidDraws(as_[0].draws, CodeLength)
    requires GroupingKey(as_[0].m) == key && key !in s
    ensures var (u, r) := AdminUpload(s, as_[0].m, as_[0].draws, as_[0].copy);
      AlbumHolds(s, u, [r], as_, key)
  {
    assert as_[..0] == [];
    assert as_[..|as_| - 1] == [];
    var code := GenerateCode(CodeLength, as_[0].draws);
    var (u, r) := AdminUpload(s, as_[0].m, as_[0].draws, as_[0].copy);
    assert r == AlbumReply(as_, 0, code);
  }

  /** A later upload of an album: a failed copy changes nothing and reports the
      error; a successful one appends its id to the album's record alone, and
      announces the link only when no earlier copy succeeded. */
  lemma AlbumLaterUpload(s: Store, t: Store, rs: seq<UploadReply>, as_: seq<Arrival>, key: Key)
    requires |as_| > 1
    requires forall i :: 0 <= i < |as_| ==> ValidDraws(as_[i].draws, CodeLength)
    requires var a := as_[|as_| - 1]; a.m.sender == AdminId && GroupingKey(a.m) == key && key !in s
    requires AlbumHolds(s, t, rs, as_[..|as_| - 1], key)
    ensures var a := as_[|as_| - 1];
      var (u, r) := AdminUpload(t, a.m, a.draws, a.copy);
      AlbumHolds(s, u, rs + [r], as_, key)
  {
    var n := |as_| - 1;
    var init := as_[..n];
    var a := as_[n];
    var code := GenerateCode(CodeLength, as_[0].draws);
    assert init[0] == as_[0];
    assert as_[..n] == init;
    forall i | 0 <= i < n
      ensures AlbumReply(as_, i, code) == AlbumReply(init, i, code)
    {
      assert as_[..i] == init[..i];
    }
    var (u, r) := AdminUpload(t, a.m, a.draws, a.copy);
    assert r == AlbumReply(as_, n, code);
  }

  // ---- the issued link ----

  lemma CodeHasNoSpace(c: string)
    requires IsCode(c)
    ensures |c| > 0 && NoSpace(c)
  {
  }

  /** As written, the link an upload announces can never be redeemed: its code is
      looked up as a key, and no key of a well-formed store is a code. */
  lemma IssuedLinkIsInvalid(s: Store, m: Message, draws: seq<nat>, copy: CopyResult,
                            requester: UserId, sendOk: nat -> bool)
    requires WellFormed(s) && ValidDraws(draws, CodeLength)
    requires AdminUpload(s, m, draws, copy).1.LinkIssued?
    ensures var (t, reply) := AdminUpload(s, m, draws, copy);
      && !AllSpace(DeepLinkText(reply.code))
      && StartHandler(t, DeepLinkText(reply.code), requester, sendOk) == (t, InvalidLink)
  {
    var (t, reply) := AdminUpload(s, m, draws, copy);
    StepWellFormed(s, UploadEvent(m, draws, copy));
    assert t[GroupingKey(m)].code == Some(reply.code);
    CodeHasNoSpace(reply.code);
    OpenLink(t, reply.code, requester, sendOk);
    CodesAreNotKeys(t, reply.code);
  }

  /** One concrete scenario: the admin uploads message 1 on its own into an empty store,
      the draws spell `K7m2Qx`, the copy gets id 100; the bot announces `K7m2Qx`, and
      opening the link `/start K7m2Qx` answers that it is invalid. */
  lemma IssuedLinkIsInvalidExample()
    ensures var code := "K7m2Qx";
      && IsCode(code)
      && var (t, reply) := AdminUpload(map[], Message(AdminId, 1, None), DrawsFor(code), Copied(100));
      && reply == LinkIssued(code)
      && t.Keys == {"single_1"}
      && !AllSpace(DeepLinkText(code))
      && StartHandler(t, DeepLinkText(code), 42, _ => true) == (t, InvalidLink)
  {
    var code := "K7m2Qx";
    ExampleUpload(code);
    IssuedLinkIsInvalid(map[], Message(AdminId, 1, None), DrawsFor(code), Copied(100), 42, _ => true);
  }

  /** The upload half of the example run. */
  lemma ExampleUpload(code: string)
    requires code == "K7m2Qx"
    ensures IsCode(code)
    ensures var (t, reply) := AdminUpload(map[], Message(AdminId, 1, None), DrawsFor(code), Copied(100));
      && reply == LinkIssued(code)
      && t.Keys == {"single_1"}
  {
    assert code == ['K', '7', 'm', '2', 'Q', 'x'];
    var m := Message(AdminId, 1, None);
    assert GenerateCode(CodeLength, DrawsFor(code)) == code;
    assert GroupingKey(m) == "single_1" by {
      assert IntToDecimal(1) == "1";
    }
  }

  /** The corrected lookup: the key whose record carries `code`. Codes are
      assumed distinct across the store (see CodesDistinct). */
  function KeyOfCode(s: Store, code: string): (k: Option<Key>)
    requires CodesDistinct(s)
    ensures k.Some? ==> k.value in s && s[k.value].code == Some(code)
    ensures k.None? ==> forall key :: key in s ==> s[key].code != Some(code)
  {
    if exists key :: key in s && s[key].code == Some(code) then
      var key :| key in s && s[key].code == Some(code);
      Some(key)
    else None
  }

  /** No two records share a code. */
  predicate CodesDistinct(s: Store) {
    forall k1, k2 :: k1 in s && k2 in s && s[k1].code.Some? && s[k1].code == s[k2].code ==> k1 == k2
  }

  /** The redemption the link is evidently meant to trigger: resolve the presented
      code to the record that carries it, then redeem that record. */
  function RedeemIssued(s: Store, code: string, requester: UserId, sendOk: nat -> bool): (r: (Store, StartReply))
    requires CodesDistinct(s)
    ensures r.1 == InvalidLink <==> forall k :: k in s ==> s[k].code != Some(code)
    ensures r.1 != InvalidLink ==>
              exists k :: k in s && s[k].code == Some(code) && r == Redeem(s, k, requester, sendOk)
    ensures !r.1.FilesSent? ==> r.0 == s
    ensures forall k :: k in s && IsUsed(s[k]) ==> k in r.0 && r.0[k] == s[k]
  {
    match KeyOfCode(s, code)
    case None => (s, InvalidLink)
    case Some(k) => Redeem(s, k, requester, sendOk)
  }

  /** `start_handler` with the corrected lookup. */
  function StartHandlerIssued(s: Store, text: string, requester: UserId, sendOk: nat -> bool): (r: (Store, StartReply))
    requires !AllSpace(text) && CodesDistinct(s)
    ensures r.1 == Welcome <==> NoSpace(Strip(text))
    ensures r.1 == Welcome ==> r.0 == s
    ensures r.1 != Welcome ==> r == RedeemIssued(s, CommandArgument(text).value, requester, sendOk)
  {
    match CommandArgument(text)
    case None => (s, Welcome)
    case Some(code) => RedeemIssued(s, code, requester, sendOk)
  }

  /** With the corrected lookup, opening the deep link of `code` redeems the record
      that carries `code`. */
  lemma OpenLinkIssued(s: Store, code: string, requester: UserId, sendOk: nat -> bool)
    requires CodesDistinct(s) && |code| > 0 && NoSpace(code)
    ensures !AllSpace(DeepLinkText(code))
    ensures StartHandlerIssued(s, DeepLinkText(code), requester, sendOk) == RedeemIssued(s, code, requester, sendOk)
  {
    DeepLinkArgument(code);
  }

  /** A code carried by a record resolves to that record's key. */
  lemma KeyOfCodeFinds(s: Store, k: Key, code: string)
    requires CodesDistinct(s) && k in s && s[k].code == Some(code)
    ensures KeyOfCode(s, code) == Some(k)
  {
  }

  /** An upload whose drawn code is not yet in use keeps the codes distinct. */
  lemma UploadKeepsCodesDistinct(s: Store, m: Message, draws: seq<nat>, copy: CopyResult)
    requires CodesDistinct(s) && ValidDraws(draws, CodeLength)
    requires forall k :: k in s ==> s[k].code != Some(GenerateCode(CodeLength, draws))
    ensures CodesDistinct(AdminUpload(s, m, draws, copy).0)
  {
    var t := AdminUpload(s, m, draws, copy).0;
    var key := GroupingKey(m);
    forall k1, k2 | k1 in t && k2 in t && t[k1].code.Some? && t[k1].code == t[k2].code
      ensures k1 == k2
    {
      if k1 != key && k2 != key {
        assert s[k1].code == s[k2].code;
      }
    }
  }

  /** A redemption changes no code, so codes stay distinct. */
  lemma RedeemKeepsCodesDistinct(s: Store, code: string, requester: UserId, sendOk: nat -> bool)
    requires CodesDistinct(s)
    ensures CodesDistinct(Redeem(s, code, requester, sendOk).0)
  {
    var u := Redeem(s, code, requester, sendOk).0;
    RedeemEvolves(s, code, requester, sendOk);
    forall k1, k2 | k1 in u && k2 in u && u[k1].code.Some? && u[k1].code == u[k2].code
      ensures k1 == k2
    {
      assert s[k1].code == u[k1].code && s[k2].code == u[k2].code;
    }
  }

  /** The batch whose link an upload announces holds just the file of that upload
      and is not used. */
  lemma AnnouncedBatch(s: Store, m: Message, draws: seq<nat>, copy: CopyResult)
    requires WellFormed(s) && ValidDraws(draws, CodeLength)
    requires AdminUpload(s, m, draws, copy).1.LinkIssued?
    ensures var (t, reply) := AdminUpload(s, m, draws, copy);
      && WellFormed(t)
      && t[GroupingKey(m)].code == Some(reply.code)
      && t[GroupingKey(m)].msgIds == Some([copy.channelMsgId])
      && !IsUsed(t[GroupingKey(m)]) && !IsBlank(t[GroupingKey(m)])
      && |reply.code| > 0 && NoSpace(reply.code)
  {
    StepWellFormed(s, UploadEvent(m, draws, copy));
    var (t, reply) := AdminUpload(s, m, draws, copy);
    CodeHasNoSpace(reply.code);
  }

  /** With the corrected lookup, the link of an unused batch holding one file
      delivers that file to the first opener and is expired for the next. */
  lemma LinkRedeemsOnce(t: Store, key: Key, code: string, id: MsgId,
                        requester: UserId, sendOk: nat -> bool, other: UserId, g: nat -> bool)
    requires CodesDistinct(t) && key in t && |code| > 0 && NoSpace(code)
    requires t[key].code == Some(code) && t[key].msgIds == Some([id])
    requires !IsUsed(t[key]) && !IsBlank(t[key])
    ensures !AllSpace(DeepLinkText(code))
    ensures var (u, answer) := StartHandlerIssued(t, DeepLinkText(code), requester, sendOk);
      && answer.FilesSent?
      && Attempted(answer.deliveries) == [id]
      && key in u && u[key].usedBy == Some(requester)
      && CodesDistinct(u)
      && StartHandlerIssued(u, DeepLinkText(code), other, g) == (u, AlreadyUsed)
  {
    FirstOpening(t, key, code, id, requester, sendOk);
    var u := StartHandlerIssued(t, DeepLinkText(code), requester, sendOk).0;
    LaterOpening(u, key, code, other, g);
  }

  /** The first opening delivers the one file and marks the batch used. */
  lemma FirstOpening(t: Store, key: Key, code: string, id: MsgId, requester: UserId, sendOk: nat -> bool)
    requires CodesDistinct(t) && key in t && |code| > 0 && NoSpace(code)
    requires t[key].code == Some(code) && t[key].msgIds == Some([id])
    requires !IsUsed(t[key]) && !IsBlank(t[key])
    ensures !AllSpace(DeepLinkText(code))
    ensures var (u, answer) := StartHandlerIssued(t, DeepLinkText(code), requester, sendOk);
      && answer.FilesSent?
      && Attempted(answer.deliveries) == [id]
      && key in u && u[key].code == Some(code) && IsUsed(u[key])
      && u[key].usedBy == Some(requester)
      && CodesDistinct(u)
  {
    KeyOfCodeFinds(t, key, code);
    OpenLinkIssued(t, code, requester, sendOk);
    RedeemKeepsCodesDistinct(t, key, requester, sendOk);
  }

  /** Once the batch carrying `code` is used, opening its link changes nothing. */
  lemma LaterOpening(u: Store, key: Key, code: string, other: UserId, g: nat -> bool)
    requires CodesDistinct(u) && key in u && |code| > 0 && NoSpace(code)
    requires u[key].code == Some(code) && IsUsed(u[key])
    ensures !AllSpace(DeepLinkText(code))
    ensures StartHandlerIssued(u, DeepLinkText(code), other, g) == (u, AlreadyUsed)
  {
    KeyOfCodeFinds(u, key, code);
    OpenLinkIssued(u, code, other, g);
  }

  /** With the corrected lookup the announced link works: opening it delivers the
      batch's file and marks that batch used by the opener, and opening it again
      finds it expired. The code drawn for a new batch must not already be in use,
      which `generate_code` leaves to chance. */
  lemma IssuedLinkRedeems(s: Store, m: Message, draws: seq<nat>, copy: CopyResult,
                          requester: UserId, sendOk: nat -> bool, other: UserId, g: nat -> bool)
    requires WellFormed(s) && CodesDistinct(s) && ValidDraws(draws, CodeLength)
    requires forall k :: k in s ==> s[k].code != Some(GenerateCode(CodeLength, draws))
    requires AdminUpload(s, m, draws, copy).1.LinkIssued?
    ensures var (t, reply) := AdminUpload(s, m, draws, copy);
      && !AllSpace(DeepLinkText(reply.code))
      && CodesDistinct(t)
      && var (u, answer) := StartHandlerIssued(t, DeepLinkText(reply.code), requester, sendOk);
      && answer.FilesSent?
      && Attempted(answer.deliveries) == [copy.channelMsgId]
      && GroupingKey(m) in u && u[GroupingKey(m)].usedBy == Some(requester)
      && CodesDistinct(u)
      && StartHandlerIssued(u, DeepLinkText(reply.code), other, g) == (u, AlreadyUsed)
  {
    var (t, reply) := AdminUpload(s, m, draws, copy);
    AnnouncedBatch(s, m, draws, copy);
    UploadKeepsCodesDistinct(s, m, draws, copy);
    LinkRedeemsOnce(t, GroupingKey(m), reply.code, copy.channelMsgId, requester, sendOk, other, g);
  }
}

=== FILE: listing.dfy ===
/** `admin_list_batches`: which records the admin's debug listing shows, and what it
    shows of each. The text layout is left out; the listing is a map from key to the
    code and the number of files. */
module Listing {
  import opened Wrappers
  import opened Batches

  /** One line of the listing: the record's code and its number of files. */
  datatype Summary = Summary(code: string, files: nat)

  datatype ListReply =
    | NotAdmin                          // another user: no answer
    | Shown(lines: map<Key, Summary>)   // the lines; "No batches yet." when empty
    | MissingField                      // a shown record lacks `code` or `msg_ids`: a KeyError ends the handler

  /** A record the listing cannot print. */
  predicate Unprintable(e: Entry) {
    e.code.None? || e.msgIds.None?
  }

  /** `admin_list_batches(message)` on the store `load_db()` returns. */
  function ListBatches(store: Store, sender: UserId): (r: ListReply)
    ensures r.NotAdmin? <==> sender != AdminId
    ensures r.MissingField? <==>
              sender == AdminId && exists k :: k in store && IsBatchKey(k) && Unprintable(store[k])
    // Exactly the keys starting with `group_` or `single_` are shown, each with its
    // stored code and the length of its id list.
    ensures r.Shown? ==>
              && (forall k :: k in r.lines <==> k in store && IsBatchKey(k))
              && (forall k :: k in r.lines ==>
                    && store[k].code == Some(r.lines[k].code)
                    && store[k].msgIds.Some? && r.lines[k].files == |store[k].msgIds.value|)
  {
    if sender != AdminId then NotAdmin
    else if exists k :: k in store && IsBatchKey(k) && Unprintable(store[k]) then MissingField
    else
      Shown(map k | k in store && IsBatchKey(k) ::
                Summary(store[k].code.value, |store[k].msgIds.value|))
  }

  /** On a store the handlers wrote, the admin sees every record, and "No batches yet."
      exactly when the store is empty. */
  lemma ListingShowsAll(store: Store)
    requires WellFormed(store)
    ensures ListBatches(store, AdminId).Shown?
    ensures ListBatches(store, AdminId).lines.Keys == store.Keys
    ensures ListBatches(store, AdminId).lines == map[] <==> store == map[]
  {
    var r := ListBatches(store, AdminId);
    assert r.lines.Keys == store.Keys;
    if store != map[] {
      var k :| k in store;
      assert k in r.lines;
    }
  }
}

=== FILE: redemption.dfy ===
/** `start_handler`: `/start <code>` looks the code up in the store and, for an
    unused record with files, sends every file and marks the record used. */
module Redemption {
  import opened Wrappers
  import opened Text
  import opened Batches

  /** One `bot.copy_message` of a stored file to the requester, and whether it
      went through (an exception is printed and swallowed). */
  datatype Delivery = Delivery(msgId: MsgId, ok: bool)

  /** What the handler answers. */
  datatype StartReply =
    | Welcome                    // `/start` alone: the welcome text
    | InvalidLink                // "This link is invalid."
    | AlreadyUsed                // "This link has already been used and is now expired."
    | NoFiles                    // "No files found for this link. Contact admin."
    | FilesSent(deliveries: seq<Delivery>)  // every stored file was attempted, in order

  /** The ids that were attempted, in attempt order. */
  function Attempted(ds: seq<Delivery>): (ids: seq<MsgId>)
    ensures |ids| == |ds|
    ensures forall i :: 0 <= i < |ds| ==> ids[i] == ds[i].msgId
  {
    if |ds| == 0 then [] else [ds[0].msgId] + Attempted(ds[1..])
  }

  /** The ids that reached the requester. */
  function Delivered(ds: seq<Delivery>): (ids: seq<MsgId>)
    ensures |ids| <= |ds|
    ensures forall id :: id in ids ==> exists i :: 0 <= i < |ds| && ds[i] == Delivery(id, true)
    ensures forall i :: 0 <= i < |ds| && ds[i].ok ==> ds[i].msgId in ids
  {
    if |ds| == 0 then []
    else if ds[0].ok then [ds[0].msgId] + Delivered(ds[1..])
    else Delivered(ds[1..])
  }

  /** The delivery loop of `start_handler` (Main.py:75-84): one copy attempt per
      stored id, in stored order; `sendOk(i)` is whether the i-th attempt
      succeeded. */
  function Deliveries(ids: seq<MsgId>, sendOk: nat -> bool): (ds: seq<Delivery>)
    ensures |ds| == |ids|
    ensures forall i :: 0 <= i < |ids| ==> ds[i] == Delivery(ids[i], sendOk(i))
  {
    seq(|ids|, i requires 0 <= i < |ids| => Delivery(ids[i], sendOk(i)))
  }

  /** The same delivery loop as an imperative loop over the ids: a failed copy is
      recorded and the loop moves on. Its result is exactly
      `Deliveries(ids, sendOk)`, the form `Redeem` uses. */
  method SendAll(ids: seq<MsgId>, sendOk: nat -> bool) returns (ds: seq<Delivery>)
    ensures Attempted(ds) == ids
    ensures forall i :: 0 <= i < |ids| ==> ds[i].ok == sendOk(i)
    ensures ds == Deliveries(ids, sendOk)
  {
    ds := [];
    var i := 0;
    while i < |ids|
      invariant 0 <= i <= |ids|
      invariant |ds| == i
      invariant forall j :: 0 <= j < i ==> ds[j] == Delivery(ids[j], sendOk(j))
    {
      var ok := sendOk(i);
      ds := ds + [Delivery(ids[i], ok)];
      i := i + 1;
    }
    assert Attempted(ds) == ids;
  }

  /** A failed copy stops nothing: whatever the transport does, every stored id is
      attempted exactly once and in stored order; when every copy succeeds, every
      stored id arrives, in order. */
  lemma {:induction false} DeliveriesAttemptAll(ids: seq<MsgId>, sendOk: nat -> bool)
    ensures Attempted(Deliveries(ids, sendOk)) == ids
    ensures (forall i :: 0 <= i < |ids| ==> sendOk(i)) ==> Delivered(Deliveries(ids, sendOk)) == ids
  {
    var ds := Deliveries(ids, sendOk);
    assert Attempted(ds) == ids;
    if forall i :: 0 <= i < |ids| ==> sendOk(i) {
      AllOkDelivered(ds);
    }
  }

  lemma {:induction false} AllOkDelivered(ds: seq<Delivery>)
    requires forall i :: 0 <= i < |ds| ==> ds[i].ok
    ensures Delivered(ds) == Attempted(ds)
  {
    if |ds| > 0 {
      AllOkDelivered(ds[1..]);
    }
  }

  /** The redemption step of `start_handler` (Main.py:57-90) for a presented
      `code`: look it up as a key of the store, then deliver and mark used, or
      report why not. `requester` is `from_user.id`. */
  function Redeem(store: Store, code: string, requester: UserId, sendOk: nat -> bool): (r: (Store, StartReply))
    // Unknown key, or a falsy (empty) record: invalid, nothing written.
    ensures r.1 == InvalidLink <==> code !in store || IsBlank(store[code])
    // Used record: expired, nothing written, `used_by` kept.
    ensures r.1 == AlreadyUsed <==> code in store && !IsBlank(store[code]) && IsUsed(store[code])
    // Unused record without files: nothing written.
    ensures r.1 == NoFiles <==>
              code in store && !IsBlank(store[code]) && !IsUsed(store[code]) && Files(store[code]) == []
    ensures !r.1.FilesSent? ==> r.0 == store
    ensures r.1 != Welcome
    // Success: every stored file attempted in order; this key alone becomes used by
    // the requester, with its code and ids kept.
    ensures r.1.FilesSent? ==>
              && code in store
              && Attempted(r.1.deliveries) == Files(store[code]) != []
              && (forall i :: 0 <= i < |r.1.deliveries| ==> r.1.deliveries[i].ok == sendOk(i))
              && r.0.Keys == store.Keys
              && (forall k :: k in store && k != code ==> r.0[k] == store[k])
              && IsUsed(r.0[code]) && r.0[code].usedBy == Some(requester)
              && r.0[code].code == store[code].code && r.0[code].msgIds == store[code].msgIds
    // No path clears `used` or rewrites `used_by` of a used record.
    ensures forall k :: k in store && IsUsed(store[k]) ==> k in r.0 && r.0[k] == store[k]
  {
    if code !in store || IsBlank(store[code]) then (store, InvalidLink)
    else
      var batch := store[code];
      if IsUsed(batch) then (store, AlreadyUsed)
      else
        var ids := Files(batch);
        if ids == [] then (store, NoFiles)
        else
          DeliveriesAttemptAll(ids, sendOk);
          var marked := batch.(used := Some(true), usedBy := Some(requester));
          (store[code := marked], FilesSent(Deliveries(ids, sendOk)))
  }

  /** `start_handler(message)`: `text` is `message.text`. The bot only dispatches
      texts that begin with a `/start` command, so `text` is never all whitespace. */
  function StartHandler(store: Store, text: string, requester: UserId, sendOk: nat -> bool): (r: (Store, StartReply))
    requires !AllSpace(text)
    ensures r.1 == Welcome <==> NoSpace(Strip(text))
    ensures r.1 == Welcome ==> r.0 == store
    ensures r.1 != Welcome ==>
              && CommandArgument(text).Some?
              && r == Redeem(store, CommandArgument(text).value, requester, sendOk)
  {
    match CommandArgument(text)
    case None => (store, Welcome)
    case Some(code) => Redeem(store, code, requester, sendOk)
  }

  /** The text a deep link `https://t.me/<bot>?start=<code>` makes Telegram send. */
  function DeepLinkText(code: string): string {
    "/start " + code
  }

  /** The code of a deep link is exactly what the handler looks up. */
  lemma {:induction false} DeepLinkArgument(code: string)
    requires |code| > 0 && NoSpace(code)
    ensures !AllSpace(DeepLinkText(code))
    ensures CommandArgument(DeepLinkText(code)) == Some(code)
  {
    var cmd := "/start";
    assert NoSpace(cmd) by {
      assert cmd == ['/', 's', 't', 'a', 'r', 't'];
    }
    assert DeepLinkText(code) == cmd + " " + code;
    ArgumentOfTwoWords(cmd, code);
  }

  /** Opening the deep link of `code` redeems exactly `code`. */
  lemma OpenLink(store: Store, code: string, requester: UserId, sendOk: nat -> bool)
    requires |code| > 0 && NoSpace(code)
    ensures !AllSpace(DeepLinkText(code))
    ensures StartHandler(store, DeepLinkText(code), requester, sendOk) == Redeem(store, code, requester, sendOk)
  {
    DeepLinkArgument(code);
  }
}

=== FILE: text.dfy ===
/** The string handling the bot relies on: Python's `str.isspace`, `strip`,
    `split(maxsplit=1)`, `startswith`, and the decimal rendering of an `int` inside
    an f-string. */
module Text {
  import opened Wrappers

  /** The whitespace code points above U+0084, as inclusive ranges. */
  const HighSpaceRanges: seq<(int, int)> := [
    (0x85, 0x85), (0xA0, 0xA0), (0x1680, 0x1680), (0x2000, 0x200A),
    (0x2028, 0x2029), (0x202F, 0x202F), (0x205F, 0x205F), (0x3000, 0x3000)
  ]

  predicate InRanges(k: int, ranges: seq<(int, int)>) {
    |ranges| > 0 && (ranges[0].0 <= k <= ranges[0].1 || InRanges(k, ranges[1..]))
  }

  /** Python's `str.isspace` on one character: the code points whose bidirectional
      class is WS, B or S or whose general category is Zs, namely U+0009..U+000D,
      U+001C..U+0020, and the ranges of HighSpaceRanges. */
  predicate IsSpace(c: char) {
    var k := c as int;
    if k <= 0x20 then 0x09 <= k <= 0x0D || 0x1C <= k
    else 0x85 <= k && InRanges(k, HighSpaceRanges)
  }

  predicate NoSpace(s: string) {
    forall i :: 0 <= i < |s| ==> !IsSpace(s[i])
  }

  predicate AllSpace(s: string) {
    forall i :: 0 <= i < |s| ==> IsSpace(s[i])
  }

  /** A string with no whitespace at either end, as `str.strip` leaves it. */
  predicate Stripped(s: string) {
    |s| > 0 ==> !IsSpace(s[0]) && !IsSpace(s[|s| - 1])
  }

  /** The first index at or after `i` that holds no whitespace, or `|s|`: the scan
      `str.strip` and `str.split` make forward over a whitespace run. */
  function SkipSpace(s: string, i: nat): (n: nat)
    requires i <= |s|
    ensures i <= n <= |s|
    ensures forall j :: i <= j < n ==> IsSpace(s[j])
    ensures n < |s| ==> !IsSpace(s[n])
    decreases |s| - i
  {
    if i < |s| && IsSpace(s[i]) then SkipSpace(s, i + 1) else i
  }

  /** The index just past the last non-whitespace character before `j`, or 0: the
      scan `str.strip` makes backward over the trailing whitespace. */
  function SkipSpaceBack(s: string, j: nat): (n: nat)
    requires j <= |s|
    ensures n <= j
    ensures forall k :: n <= k < j ==> IsSpace(s[k])
    ensures n > 0 ==> !IsSpace(s[n - 1])
  {
    if j > 0 && IsSpace(s[j - 1]) then SkipSpaceBack(s, j - 1) else j
  }

  /** The end of the word that starts at `i`: the first whitespace index at or after
      `i`, or `|s|`. */
  function WordEnd(s: string, i: nat): (n: nat)
    requires i <= |s|
    ensures i <= n <= |s|
    ensures forall j :: i <= j < n ==> !IsSpace(s[j])
    ensures n < |s| ==> IsSpace(s[n])
    decreases |s| - i
  {
    if i < |s| && !IsSpace(s[i]) then WordEnd(s, i + 1) else i
  }

  /** `s.strip()`: the part of `s` between its leading and its trailing whitespace
      run; nothing when `s` is all whitespace. */
  function Strip(s: string): (r: string)
    ensures Stripped(r) && |r| <= |s|
  {
    var a := SkipSpace(s, 0);
    var b := SkipSpaceBack(s, |s|);
    if a < b then s[a..b] else ""
  }

  /** `strip` removes whitespace only: what it drops on the left and on the right is
      all whitespace, and what it keeps is a contiguous part of `s`. */
  lemma StripKeepsMiddle(s: string)
    ensures var a := SkipSpace(s, 0); var r := Strip(s);
              && a + |r| <= |s| && r == s[a..a + |r|]
              && (forall i :: 0 <= i < a ==> IsSpace(s[i]))
              && (forall i :: a + |r| <= i < |s| ==> IsSpace(s[i]))
  {
  }

  /** Only an all-whitespace string strips to nothing. */
  lemma StripEmpty(s: string)
    ensures |Strip(s)| == 0 <==> AllSpace(s)
  {
    StripKeepsMiddle(s);
  }

  /** Stripping a string that is already stripped changes nothing. */
  lemma StripStripped(s: string)
    requires Stripped(s)
    ensures Strip(s) == s
  {
  }

  /** The two parts of `text.strip().split(maxsplit=1)`: the first word, and the
      remainder when there is one. */
  datatype Words = Words(first: string, rest: Option<string>)

  /** `s` is `first`, then a non-empty run of whitespace, then `rest`; `first` holds
      no whitespace and `rest` none at either end. */
  predicate SplitsInto(s: string, first: string, rest: string) {
    && |first| > 0 && NoSpace(first)
    && |rest| > 0 && Stripped(rest)
    && |first| + |rest| < |s|
    && s[..|first|] == first
    && s[|s| - |rest|..] == rest
    && forall i :: |first| <= i < |s| - |rest| ==> IsSpace(s[i])
  }

  /** `text.strip().split(maxsplit=1)` for a text that holds at least one
      non-whitespace character (so the split yields at least one part). After the
      first word and the whitespace run behind it, the rest of the stripped line is
      kept whole. */
  function SplitFirst(text: string): (w: Words)
    requires !AllSpace(text)
    ensures w.rest.None? ==> w.first == Strip(text) && |w.first| > 0 && NoSpace(w.first)
    ensures w.rest.Some? ==> SplitsInto(Strip(text), w.first, w.rest.value)
  {
    var s := Strip(text);
    StripEmpty(text);
    var n := WordEnd(s, 0);
    if n == |s| then
      Words(s, None)
    else
      var m := SkipSpace(s, n);
      Words(s[..n], Some(s[m..]))
  }

  lemma SplitHasSpace(s: string, first: string, rest: string)
    requires SplitsInto(s, first, rest)
    ensures IsSpace(s[|first|]) && !NoSpace(s)
  {
  }

  /** `text.strip().split(maxsplit=1)[1].strip()`: the argument of a command line,
      or None when the line is a single word. */
  function CommandArgument(text: string): (arg: Option<string>)
    requires !AllSpace(text)
    ensures arg.Some? ==> |arg.value| > 0 && Stripped(arg.value)
    ensures arg.None? <==> NoSpace(Strip(text))
    // The argument is what follows the first word and the whitespace run behind it.
    ensures arg.Some? ==> SplitsInto(Strip(text), SplitFirst(text).first, arg.value)
  {
    var w := SplitFirst(text);
    match w.rest
    case None => None
    case Some(rest) =>
      SplitHasSpace(Strip(text), w.first, rest);
      StripStripped(rest);
      Some(Strip(rest))
  }

  /** A command word, one space and an argument word: the argument comes back
      unchanged. */
  lemma ArgumentOfTwoWords(cmd: string, arg: string)
    requires |cmd| > 0 && NoSpace(cmd) && |arg| > 0 && NoSpace(arg)
    ensures !AllSpace(cmd + " " + arg)
    ensures CommandArgument(cmd + " " + arg) == Some(arg)
  {
    var s := cmd + " " + arg;
    assert s[0] == cmd[0] && s[|s| - 1] == arg[|arg| - 1];
    StripStripped(s);
    assert forall j :: 0 <= j < |cmd| ==> s[j] == cmd[j];
    assert s[|cmd|] == ' ' && s[|cmd| + 1] == arg[0];
    assert WordEnd(s, 0) == |cmd|;
    assert SkipSpace(s, |cmd|) == |cmd| + 1;
    assert s[|cmd| + 1..] == arg;
    StripStripped(arg);
  }

  predicate StartsWith(s: string, prefix: string) {
    |prefix| <= |s| && s[..|prefix|] == prefix
  }

  // ---- decimal rendering of integers (f"{n}") ----

  predicate IsDigit(c: char) {
    '0' <= c <= '9'
  }

  predicate AllDigits(s: string) {
    forall i :: 0 <= i < |s| ==> IsDigit(s[i])
  }

  function DigitChar(d: nat): (c: char)
    requires d < 10
    ensures IsDigit(c)
  {
    ('0' as int + d) as char
  }

  function DigitValue(c: char): (d: nat)
    requires IsDigit(c)
    ensures d < 10
  {
    c as int - '0' as int
  }

  /** The decimal digits of `n`, most significant first, with no leading zero. */
  function NatToDecimal(n: nat): (r: string)
    ensures |r| > 0 && AllDigits(r)
    ensures |r| > 1 ==> r[0] != '0'
    decreases n
  {
    if n < 10 then [DigitChar(n)] else NatToDecimal(n / 10) + [DigitChar(n % 10)]
  }

  /** The value of a string of decimal digits. */
  function DecimalToNat(s: string): nat
    requires AllDigits(s)
  {
    if |s| == 0 then 0 else 10 * DecimalToNat(s[..|s| - 1]) + DigitValue(s[|s| - 1])
  }

  /** Python's `str(n)` / `f"{n}"` for an `int`: a minus sign, then the digits of the
      magnitude. */
  function IntToDecimal(n: int): (r: string)
    ensures |r| > 0
    ensures NoSpace(r)
    ensures n >= 0 <==> IsDigit(r[0])
  {
    if n < 0 then "-" + NatToDecimal(-n) else NatToDecimal(n)
  }

  /** Reads back what IntToDecimal writes. */
  function DecimalToInt(s: string): int
    requires |s| > 0
    requires s[0] == '-' ==> AllDigits(s[1..])
    requires s[0] != '-' ==> AllDigits(s)
  {
    if s[0] == '-' then -(DecimalToNat(s[1..]) as int) else DecimalToNat(s)
  }

  lemma {:induction false} NatDecimalRoundTrip(n: nat)
    ensures DecimalToNat(NatToDecimal(n)) == n
    decreases n
  {
    if n >= 10 {
      NatDecimalRoundTrip(n / 10);
      var r := NatToDecimal(n);
      assert r[..|r| - 1] == NatToDecimal(n / 10);
    }
  }

  /** Rendering an integer loses nothing: it is read back exactly. */
  lemma IntDecimalRoundTrip(n: int)
    ensures var r := IntToDecimal(n); DecimalToInt(r) == n
  {
    if n < 0 {
      NatDecimalRoundTrip(-n);
      assert IntToDecimal(n)[1..] == NatToDecimal(-n);
    } else {
      NatDecimalRoundTrip(n);
    }
  }

  /** Distinct integers are rendered as distinct strings. */
  lemma IntToDecimalInjective(a: int, b: int)
    ensures IntToDecimal(a) == IntToDecimal(b) <==> a == b
  {
    if IntToDecimal(a) == IntToDecimal(b) {
      IntDecimalRoundTrip(a);
      IntDecimalRoundTrip(b);
    }
  }
}

=== FILE: upload.dfy ===
/** `admin_upload_handler`: an admin's media message is copied into the storage
    channel and its copy's id is appended to the batch of its grouping key. */
module Upload {
  import opened Wrappers
  import opened Text
  import opened Codes
  import opened Batches

  /** What the handler reads of an incoming media message. */
  datatype Message = Message(sender: UserId, messageId: MsgId, mediaGroupId: Option<string>)

  /** The outcome of `bot.copy_message` into the storage channel: the id of the
      copy, or an exception. */
  datatype CopyResult = Copied(channelMsgId: MsgId) | CopyFailed

  /** What the handler answers. */
  datatype UploadReply =
    | Ignored              // the sender is not the admin: no answer at all
    | CopyError            // "Failed to copy to storage channel"
    | LinkIssued(code: string)  // first file of the batch: the one-time link carrying `code`
    | AddedToBatch         // "Added to the same batch"
    | MissingField         // an existing record lacks `code` or `msg_ids`: a KeyError ends the handler

  /** `group_<media_group_id>` for a message of an album, `single_<message_id>` for a
      message on its own. */
  function GroupingKey(m: Message): (k: Key)
    ensures IsBatchKey(k)
    ensures StartsWith(k, "group_") <==> m.mediaGroupId.Some?
  {
    match m.mediaGroupId
    case Some(g) => "group_" + g
    case None =>
      var k := "single_" + IntToDecimal(m.messageId);
      assert k[..6][0] == 's';
      k
  }

  /** Two messages share a batch exactly when they belong to the same album, or are
      the same stand-alone message. */
  lemma GroupingKeySame(a: Message, b: Message)
    ensures GroupingKey(a) == GroupingKey(b) <==>
              if a.mediaGroupId.Some? || b.mediaGroupId.Some? then a.mediaGroupId == b.mediaGroupId
              else a.messageId == b.messageId
  {
    var ka, kb := GroupingKey(a), GroupingKey(b);
    assert ka[0] == if a.mediaGroupId.Some? then 'g' else 's';
    assert kb[0] == if b.mediaGroupId.Some? then 'g' else 's';
    if ka == kb {
      if a.mediaGroupId.Some? {
        assert a.mediaGroupId.value == ka[6..] == kb[6..] == b.mediaGroupId.value;
      } else {
        assert IntToDecimal(a.messageId) == ka[7..] == kb[7..] == IntToDecimal(b.messageId);
        IntToDecimalInjective(a.messageId, b.messageId);
      }
    } else if a.mediaGroupId.None? && b.mediaGroupId.None? {
      IntToDecimalInjective(a.messageId, b.messageId);
    }
  }

  /** The copy-and-append step of `admin_upload_handler` (Main.py:127-159), once
      the batch of `key` carries `code`: append the copy's id and announce the
      link when it is the batch's first file. */
  function AppendCopy(db: Store, key: Key, code: string, copy: CopyResult): (r: (Store, UploadReply))
    requires key in db
    ensures r.0.Keys == db.Keys
    ensures forall k :: k in db && k != key ==> r.0[k] == db[k]
    ensures r.0[key].code == db[key].code && r.0[key].used == db[key].used
    ensures r.0[key].usedBy == db[key].usedBy
    ensures r.1.MissingField? <==> copy.Copied? && db[key].msgIds.None?
    ensures r.1.MissingField? || copy.CopyFailed? ==> r.0 == db
    ensures r.1 == CopyError <==> copy.CopyFailed?
    ensures !r.1.MissingField? && copy.Copied? ==>
              r.0[key].msgIds == Some(db[key].msgIds.value + [copy.channelMsgId])
    ensures r.1.LinkIssued? <==>
              copy.Copied? && db[key].msgIds.Some? && r.0[key].msgIds == Some([copy.channelMsgId])
    ensures r.1.LinkIssued? ==> r.1.code == code
    ensures r.1 != Ignored
  {
    match copy
    case CopyFailed => (db, CopyError)
    case Copied(id) =>
      match db[key].msgIds
      case None => (db, MissingField)
      case Some(ids) =>
        var ids' := ids + [id];
        assert |ids'| == 1 <==> ids' == [id];
        (db[key := db[key].(msgIds := Some(ids'))],
         if |ids'| == 1 then LinkIssued(code) else AddedToBatch)
  }

  /** `admin_upload_handler(message)` on the store `load_db()` returns; the first
      component is what the store holds once the handler returns. `draws` are the
      random picks `generate_code()` would make; they are used only for an unseen key. */
  function AdminUpload(store: Store, m: Message, draws: seq<nat>, copy: CopyResult): (r: (Store, UploadReply))
    requires ValidDraws(draws, CodeLength)
    // A non-admin upload is ignored and writes nothing.
    ensures m.sender != AdminId <==> r.1 == Ignored
    ensures m.sender != AdminId ==> r.0 == store
    // An admin upload adds at most its grouping key and touches no other key.
    ensures m.sender == AdminId ==> r.0.Keys == store.Keys + {GroupingKey(m)}
    ensures forall k :: k in store && k != GroupingKey(m) ==> r.0[k] == store[k]
    // First sighting of a key: a fresh six-character code and an empty list, even when
    // the copy then fails.
    ensures m.sender == AdminId && GroupingKey(m) !in store ==>
              var e := r.0[GroupingKey(m)];
              && e.code == Some(GenerateCode(CodeLength, draws)) && IsCode(e.code.value)
              && e.used.None? && e.usedBy.None?
              && e.msgIds == Some(if copy.Copied? then [copy.channelMsgId] else [])
    // A later upload for the key keeps its code, its flags and its earlier ids.
    ensures m.sender == AdminId && GroupingKey(m) in store ==>
              var old_e := store[GroupingKey(m)];
              var e := r.0[GroupingKey(m)];
              && e.code == old_e.code && e.used == old_e.used && e.usedBy == old_e.usedBy
              && (r.1.MissingField? <==> old_e.code.None? || (copy.Copied? && old_e.msgIds.None?))
              && (r.1.MissingField? || copy.CopyFailed? ==> e == old_e)
              && (!r.1.MissingField? && copy.Copied? ==>
                    e.msgIds == Some(old_e.msgIds.value + [copy.channelMsgId]))
    // A failed copy appends nothing; the link is announced exactly when the list has
    // just reached length one, and carries the key's stored code.
    ensures r.1 == CopyError <==> m.sender == AdminId && copy.CopyFailed? && !r.1.MissingField?
    ensures r.1.LinkIssued? <==>
              && m.sender == AdminId && copy.Copied? && !r.1.MissingField?
              && r.0[GroupingKey(m)].msgIds == Some([copy.channelMsgId])
    ensures r.1.LinkIssued? ==> r.0[GroupingKey(m)].code == Some(r.1.code)
    // The KeyError paths need a record that was already there.
    ensures r.1.MissingField? ==> m.sender == AdminId && GroupingKey(m) in store
  {
    if m.sender != AdminId then (store, Ignored)
    else
      var key := GroupingKey(m);
      if key !in store then
        var code := GenerateCode(CodeLength, draws);
        AppendCopy(store[key := NewEntry(code)], key, code, copy)
      else
        match store[key].code
        case None => (store, MissingField)
        case Some(code) => AppendCopy(store, key, code, copy)
  }
}

=== FILE: wrappers.dfy ===
/** The optional values a JSON record or a parsed command line may or may not carry. */
module Wrappers {

  /** A value that may be absent, as a missing dictionary key or a Python `None`. */
  datatype Option<+T> = None | Some(value: T) {

    /** The carried value, or `default` when there is none (Python's `dict.get(key, default)`). */
    function GetOr(default: T): (r: T)
      ensures Some? ==> r == value
      ensures None? ==> r == default
    {
      match this
      case Some(v) => v
      case None => default
    }
  }
}
